=== FILE: README.md ===
# ABC notation renderer: a Dafny model of the sample-buffer logic

The renderer of this repository turns a list of `(frequency, duration)` notes,
read from an ABC file, into one floating-point audio track at 44100 samples
per second. This project models, in Dafny, the part of `renderer.py` that
decides what goes into that buffer:

- **`apply_adsr`** (module `Envelope`, `envelope.dfy`). A buffer of `n` samples
  is cut into attack, decay, sustain and release segments, with lengths
  `int(n*attack)`, `int(n*decay)`, the rest (clamped to 0) and `int(n*release)`.
  The envelope curve is laid out segment by segment, padded or cut to `n`
  values and multiplied into the wave.
- **`generateWaveform`** (module `Oscillator`, `oscillator.dfy`). The time
  axis has `int(44100 * duration)` points. An oscillator is chosen by name,
  and an unknown name falls back to sawtooth. The default envelope is applied,
  then the volume.
- **`renderMusic`** (module `Render`, `render.dfy`). Each note is
  pitch-shifted by `2 ** (pitchShift / 12)` and tempo-scaled by `120 / bpm`.
  It becomes silence (frequency 0) or a synthesised note, and is appended to
  the track. The loop is the method `RenderMusic`, proved against the
  function `Render`.
- **`add_noise`** (module `Noise`, `noise.dfy`). White, pink or brown noise
  as long as the wave is scaled to a peak magnitude of one and added at a
  level.
- **`mixWithWav`** without the file read (module `Mix`, `mix.dfy`). External
  16-bit samples are scaled by `1/32767`, both buffers are cut to the shorter
  length, and the two are averaged.

`common.dfy` (module `Common`) holds what the five share:
- the sample rate;
- the error kinds;
- Python's `int()` on floats, which truncates toward zero;
- numpy's `linspace`, computed the way numpy computes it: `arange(num) * step
  + start`, with the last value set to `stop` when the endpoint is included
  and there are at least two values.

Float samples are Dafny `real`s. The values of `sin`, `square`, `sawtooth`,
`2 ** x`, `sqrt` and of each inverse-FFT sample are fields of a `Numerics`
value passed in as a parameter. The random draws of `add_noise` are a stream
`gauss: nat -> real`: draw `k` is `gauss(k)`, in the order numpy makes them.

Python exceptions become `Err` values of a `Result`:
- `NoNotesLoaded`: no notes.
- `ZeroDivision`: `120 / bpm` with `bpm == 0`.
- `NegativeSampleCount`: numpy refuses a negative length.
- `UnsupportedNoiseType`: a noise type other than white, pink or brown.
- `EmptyMaximum`: `np.max` over nothing.
- `InvalidFftLength`: `irfft` asked for zero points.

The model follows the code in these places:
- the sample count is `int(44100 * duration)`, truncated, not rounded;
- the envelope padding uses zeros, and it never happens anyway (`CurveCoversBuffer`);
- with no overshoot and at least two release samples the envelope ends at
  exactly 0 (`ReleaseEndsAtZero`); with one release sample numpy's
  `linspace` yields only its start, so the envelope ends on the sustain level
  (`SingleReleaseHoldsSustain`);
- `add_noise` has no guard against a zero peak.

In the application, the external mix is applied before the noise, and both
come after `renderMusic`.

## Model

| member | source | states |
|---|---|---|
| Common.Trunc | renderer.py:47-49 | `int()` on a float keeps the sign: non-negative for x >= 0, non-positive for x < 0 |
| Common.TruncBounds | renderer.py:47-49 | `int()` of a float is the integer next to it on the side of zero, less than one away |
| Common.Linspace | renderer.py:55-58 | `np.linspace(start, stop, num, endpoint)` has exactly num values |
| Common.LinspaceAt | renderer.py:55-58 | linspace value i is the point i/div of the way from start to stop, where div is num-1 with the endpoint and num without; with div <= 0 it is start |
| Common.LinspaceEnds | renderer.py:55-58 | linspace starts at start; with the endpoint and two or more values it ends exactly at stop, and with one value it is [start] |
| Common.LinspaceBetween | renderer.py:55-58 | every linspace value lies between its two ends |
| Envelope.PortionBounds | renderer.py:47-49 | a segment length int(n*f) is at most n*f and less than one sample short of it |
| Envelope.Partition | renderer.py:46-52 | without overshoot a+d+s+r == n; on overshoot (a+d+r > n) sustain is clamped to 0 |
| Envelope.PartitionLengths | renderer.py:47-49 | each segment length is the whole part of its own fraction: a = int(n*attack), d = int(n*decay), r = int(n*release) |
| Envelope.Curve | renderer.py:54-59 | the concatenated envelope is as long as the four segments together, and never shorter than n |
| Envelope.Shape | renderer.py:61-62 | the padded-and-cut envelope has exactly n values |
| Envelope.ApplyAdsr | renderer.py:63 | the shaped wave is as long as the wave, and sample i is wave[i] times envelope value i |
| Envelope.CurveCoversBuffer | renderer.py:54-62 | the concatenated segments are never shorter than n, so the zero padding adds nothing and the envelope is their first n values |
| Envelope.SegmentsTile | renderer.py:50-62 | without overshoot the four segments tile n exactly and the envelope is their concatenation, uncut |
| Envelope.OvershootCutsRelease | renderer.py:51-62 | on overshoot sustain vanishes and the envelope is the first n values of attack, decay and release |
| Envelope.ShapeAt | renderer.py:54-59 | envelope value i comes from the segment i falls in, at its offset within that segment |
| Envelope.EnvelopeStartsAtZero | renderer.py:55 | with at least one attack sample the envelope starts at 0 |
| Envelope.SustainIsFlat | renderer.py:57 | every sample of the sustain segment equals the sustain level |
| Envelope.ReleaseEndsAtZero | renderer.py:58 | with r >= 2 and no overshoot the last envelope value is exactly 0 |
| Envelope.SingleReleaseHoldsSustain | renderer.py:58 | with r == 1 and no overshoot the last envelope value is the sustain level, not 0 |
| Envelope.EnvelopeInUnitRange | renderer.py:54-59 | with sustain in [0, 1] every envelope value is in [0, 1] |
| Envelope.AdsrAttenuates | renderer.py:63 | with sustain in [0, 1] the envelope never increases a sample's magnitude |
| Envelope.DefaultTiles | renderer.py:82 | the default parameters (0.05, 0.1, 0.7, 0.1) never overshoot |
| Envelope.DefaultEdgesSilent | renderer.py:82 | from 20 samples on, the default envelope starts and ends at 0 |
| Oscillator.SampleCount | renderer.py:70 | int(44100*duration) is the whole number of samples that fit in a non-negative duration; a negative duration gives zero or fewer, less than one sample above 44100*duration |
| Oscillator.TimeAxis | renderer.py:70 | the half-open axis has count points, and time i is (i/count)*duration |
| Oscillator.Select | renderer.py:71-80 | a recognised waveform name selects the waveform of that name; every other name selects sawtooth |
| Oscillator.Oscillate | renderer.py:71-80 | each waveform's value at a phase lies in [-1, 1] when the library's sin, square and sawtooth do |
| Oscillator.RawWave | renderer.py:70-80 | the raw wave has count samples, and sample i is the selected oscillator at 2*pi*f*t[i] |
| Oscillator.SelectByName | renderer.py:71-80 | each waveform is selected by its own name |
| Oscillator.UnknownWaveformIsSawtooth | renderer.py:77-80 | any name other than sine/square/triangle/sawtooth renders exactly as sawtooth |
| Oscillator.Synthesize | renderer.py:82-83 | a synthesised note has exactly count samples |
| Oscillator.GenerateWaveform | renderer.py:69-83 | generateWaveform returns int(44100*duration) samples |
| Oscillator.ShapedSampleAt | renderer.py:82-83 | volume is applied after the envelope: sample i is volume times (wave[i] times envelope value i) |
| Oscillator.SynthesizedSampleAt | renderer.py:70-83 | note sample i is volume times the oscillator at time i times envelope value i |
| Oscillator.NoteSampleAt | renderer.py:69-83 | generateWaveform sample i is volume times the selected oscillator at time i times the default envelope at i |
| Oscillator.SilentWhereEnvelopeIsZero | renderer.py:82-83 | where the envelope is 0 the note is silent |
| Oscillator.NoteEdgesSilent | renderer.py:82-83 | a note of 20 or more samples starts and ends on a zero sample |
| Oscillator.RawWaveBounded | renderer.py:72-80 | oscillators bounded by 1 give a raw wave within [-1, 1] |
| Oscillator.SynthesizedWithinVolume | renderer.py:72-83 | with bounded oscillators and sustain in [0, 1] no note sample exceeds the volume in magnitude |
| Oscillator.NoteWithinVolume | renderer.py:69-83 | no generateWaveform sample exceeds the volume in magnitude |
| Render.ShiftedFrequency | renderer.py:96 | the shifted frequency of a rest (frequency 0) stays 0 |
| Render.RealDuration | renderer.py:97 | the scaled duration times bpm equals the written duration times 120 |
| Render.NoteSamples | renderer.py:97-99 | a note's count is negative, so numpy refuses it, exactly when 44100 times its scaled duration is -1 or less; a non-negative duration at a positive tempo always gives a valid count |
| Render.Segment | renderer.py:96-101 | a note's buffer exists iff its sample count is not negative, else the error is NegativeSampleCount; it has that many samples, all zero for a rest |
| Render.SoundingSampleAt | renderer.py:96-101 | a sounding note's buffer is generateWaveform at the shifted frequency, the scaled duration, the chosen waveform and the volume: sample j is the volume times the selected oscillator at time j of the scaled axis times the default envelope at j |
| Render.Concat | renderer.py:93-102 | a failing accumulation returns the very error result of one of its parts |
| Render.Track | renderer.py:93-104 | the accumulated finalWav exists exactly when every note's count is valid, and otherwise the error is NegativeSampleCount |
| Render.Render | renderer.py:88-104 | no notes gives NoNotesLoaded, exactly notes with bpm 0 give ZeroDivision, and any other failure is NegativeSampleCount |
| Render.RenderMusic | renderer.py:88-104 | the loop computes Render; no notes gives NoNotesLoaded, bpm 0 gives ZeroDivision, success iff every count is valid, and the length is the sum of the per-note counts |
| Render.ConcatErrorPersists | renderer.py:95-102 | once a prefix of the notes fails, the track fails the same way |
| Render.ConcatFirstError | renderer.py:95-102 | the track fails with the error of its first failing note |
| Render.ConcatSucceedsIff | renderer.py:95-102 | the accumulation succeeds exactly when every part does |
| Render.ConcatAppend | renderer.py:102 | accumulating two lists of parts gives the two results concatenated |
| Render.ConcatPartInPlace | renderer.py:102 | in a successful accumulation part k sits right after the parts before it |
| Render.SegmentsPrefix | renderer.py:95 | the results for a prefix of the notes are a prefix of the results |
| Render.SegmentsSuffix | renderer.py:95 | the results for the notes from k on are the results from k on |
| Render.SegmentsAppend | renderer.py:95 | the results for two note lists in a row are the two result lists in a row |
| Render.TrackLength | renderer.py:95-102 | a successful track has the summed per-note sample counts |
| Render.TrackAppend | renderer.py:95-102 | rendering two note lists in a row gives the two tracks concatenated |
| Render.SegmentInPlace | renderer.py:95-102 | note k's buffer sits in the track right after the samples of the notes before it |
| Render.RestIsSilent | renderer.py:98-99 | every track sample that belongs to a rest is zero |
| Render.SoundingNoteInPlace | renderer.py:95-102 | in a successful track, sample j of sounding note k is at offset TotalSamples(notes[..k]) + j and is that note's generateWaveform sample j |
| Render.PitchShiftIdentity | renderer.py:96 | pitch shift 0 leaves the frequency unchanged, given 2 ** 0 == 1 |
| Render.PitchShiftOctave | renderer.py:96 | pitch shift 12 doubles the frequency, given 2 ** 1 == 2 |
| Render.TempoReference | renderer.py:97 | at 120 bpm durations are unchanged |
| Render.TempoDoubling | renderer.py:97 | doubling the tempo halves every duration |
| Render.SampleCountsOfScenario | renderer.py:99 | one second is 44100 samples and half a second 22050 |
| Render.ScenarioCounts | renderer.py:95-102 | notes of 1, 0.5 and 1 seconds at 120 bpm take 44100, 22050 and 44100 samples, 110250 in all |
| Render.ThreeNoteScenario | renderer.py:88-104 | a 440 Hz second, a half-second rest and an 880 Hz second render to 110250 samples whose samples 44100 to 66149 are zero |
| Render.ThreeNoteScenarioSounding | renderer.py:88-104 | in that render, samples 0 to 44099 are the 440 Hz note's generateWaveform samples and samples 66150 to 110249 the 880 Hz note's |
| Noise.ParseNoise | renderer.py:135-152 | a noise type is accepted iff it is white, pink or brown; anything else is UnsupportedNoiseType |
| Noise.ParseByName | renderer.py:135-152 | each noise kind is selected by its own name |
| Noise.Peak | renderer.py:145 | np.max(np.abs(s)) bounds every sample's magnitude and is attained by one |
| Noise.Normalize | renderer.py:145 | dividing a buffer by its peak keeps its length |
| Noise.NormalizeScalesBack | renderer.py:145 | normalised sample i times the peak is sample i again |
| Noise.Draws | renderer.py:136 | np.random.normal(0, 1, n) is n draws, draw k of the buffer being draw start+k of the stream |
| Noise.CumSum | renderer.py:149 | np.cumsum keeps the buffer's length |
| Noise.CumSumSteps | renderer.py:149 | brown noise is a random walk: it starts at the first draw and each step adds the next |
| Noise.CumSumIsPrefixSum | renderer.py:149 | cumsum sample i is the sum of the first i+1 draws |
| Noise.PinkSpectrum | renderer.py:138-141 | the pink branch draws n//2 + 1 + n%2 bins |
| Noise.PinkSpectrumReadsDraws | renderer.py:139-141 | the pink spectrum depends on exactly draws 0 to 2m-1: streams that agree there give the same spectrum |
| Noise.PinkBinUnshaped | renderer.py:139-142 | bin k times sqrt(k+1) has draw k as its real part and draw m+k as its imaginary part (real parts are drawn first) |
| Noise.Irfft | renderer.py:142 | irfft of a spectrum of two or more bins returns 2*(len(X) - 1) samples |
| Noise.PinkRaw | renderer.py:138-144 | for n >= 1 the pink branch yields exactly n samples, for odd and even n, and sample i is irfft sample i (an odd n drops the last one) |
| Noise.RawNoise | renderer.py:135-149 | every noise kind yields exactly n samples before scaling (pink for n >= 1, since irfft refuses n == 0) |
| Noise.NoiseBuffer | renderer.py:135-156 | the scaled noise has exactly n samples |
| Noise.AddScaled | renderer.py:157 | wave + noise * level keeps the length, and sample i is wave[i] + noise[i] * level |
| Noise.AddNoise | renderer.py:133-158 | an unsupported type fails first with UnsupportedNoiseType; an empty wave fails with InvalidFftLength (pink) or EmptyMaximum (white, brown); otherwise the result is wave + noise * level |
| Noise.NoisySamples | renderer.py:133-158 | the result exists iff the type is white, pink or brown and the wave is not empty; it is as long as the wave, and sample i is wave[i] + noise[i] * level |
| Noise.NormalizedWithinUnit | renderer.py:145 | a buffer divided by its peak lies within [-1, 1] and reaches magnitude 1 |
| Noise.NormalizedPeakIsOne | renderer.py:145 | after division by the peak the peak is exactly 1 |
| Noise.NormalizeIdempotent | renderer.py:156 | dividing by the peak a second time changes nothing |
| Noise.NoiseWithinUnit | renderer.py:135-156 | the added noise lies within [-1, 1] and has peak 1, for every kind |
| Noise.AddScaledWithinLevel | renderer.py:157 | adding noise in [-1, 1] moves a sample by at most the level's magnitude |
| Noise.NoiseWithinLevel | renderer.py:157 | every noisy sample is within the level of the clean one |
| Noise.ZeroLevelIsIdentity | renderer.py:157 | level 0 gives the wave back unchanged |
| Noise.EmptyWaveFails | renderer.py:133-150 | a supported type on an empty wave always fails |
| Noise.DefaultTypeSupported | renderer.py:133-146 | the default type is pink, and a call with the defaults succeeds on every non-empty wave |
| Noise.DefaultLevelWithin | renderer.py:133-157 | at the default level 0.08 every noisy sample is within 0.08 of the clean one |
| Mix.ToFloat | renderer.py:165 | the converted samples keep their number, and sample i times 32767 is the integer sample again |
| Mix.MixWithWav | renderer.py:163-167 | the mix has min(len(wave), len(ext)) samples, and sample i is 0.5*(wave[i] + ext[i]/32767) |
| Mix.MixWithItself | renderer.py:166-167 | mixing with a file holding the same samples gives the wave back, cut to the file's length |
| Mix.MixWithSilence | renderer.py:165-167 | a silent file halves the wave over the shorter of the two lengths |
| Mix.MixWithinUnit | renderer.py:165-167 | a wave in [-1, 1] mixed with samples within +-32767 stays in [-1, 1] |
| Mix.Int16LowestExceedsUnit | renderer.py:165-167 | the bound of MixWithinUnit cannot cover the whole 16-bit range: mixing -1.0 with the file sample -32768 gives a value below -1 |

## Left out

- `loadABC` (renderer.py:23-40) is not part of this model. It does music21 parsing, repeat expansion and file I/O. The note list is a parameter of `Render` and `RenderMusic` instead. Because `loadABC` keeps only `note.Note` objects, a zero-frequency rest never actually reaches `renderMusic`. The model still covers that branch.
- `play`, `saveToWav` and `saveToMidi` are device and file I/O. So is the `wav_read` call in `mixWithWav`: the external samples are a parameter of `MixWithWav`.
- Menu.py is not part of this model. It is an interactive loop. It only fixes the order of operations: render, then the external mix, then the noise.
- Sample values of `sin`, `square`, `sawtooth`, `2 ** x`, `sqrt` and the inverse FFT are uninterpreted (fields of `Numerics`). The random generator is an input stream.
- Float arithmetic is modelled with exact reals. float32 and float64 rounding, and the int16 wrap-around of `saveToWav`, are left out.
- A WAV file with more than one channel (a two-dimensional array) is left out. `MixWithWav` takes one channel of integer samples.
- The `envelope` computed at renderer.py:154 is never used, so the model leaves it out.
- Envelope.WellFormed: requires ADSR time fractions that are not negative, which is stronger than numpy needs. numpy refuses only a truncated length `int(n*f)` below zero, so a fraction in (-1/n, 0) truncates to length 0 and runs. The only caller, `generateWaveform`, passes the fixed non-negative defaults.
- Noise.AddNoise: requires a noise buffer that is not all zero for supported types on non-empty waves. The code has no guard against a zero peak: numpy divides 0 by 0 and yields NaN samples, which reals cannot represent.
- Oscillator.GenerateWaveform: requires a sample count that is not negative, so it does not itself show the ValueError `np.linspace` raises at renderer.py:70 for a negative count. Its one caller, `Render.Segment`, checks the count first and returns that error as `NegativeSampleCount`.
- Render.ShiftedFrequency: the power `2 ** (pitchShift / 12)` at renderer.py:96 is a float power, which raises OverflowError once pitchShift >= 12288 (the result would pass 2 ** 1024). It is computed before the `freq == 0` test, so even a rest fails. The model's `exp2` is total, so `Render` returns a track there instead of an error.

=== FILE: common.dfy ===
/** Shared vocabulary of the renderer model: the sample rate, the error kinds
    the renderer raises, Python's int() truncation, numpy's linspace, and
    the numerical library whose sample values the model leaves uninterpreted. */
module Common {

  /** Samples per second (renderer.py `sampleRate`). */
  const SampleRate: int := 44100

  /** The decimal form of numpy's double-precision pi (the exact real
      3.141592653589793, not the double itself), used in the oscillator
      phase 2*pi*f*t. */
  const Pi: real := 3.141592653589793

  /** The exceptions the renderer can raise, one per distinct cause. */
  datatype Error =
    | NoNotesLoaded          // renderMusic on an empty note list
    | ZeroDivision           // 120 / bpm with bpm == 0
    | NegativeSampleCount    // np.zeros / np.linspace asked for a negative length
    | UnsupportedNoiseType   // add_noise with a noise type it does not know
    | EmptyMaximum           // np.max over a zero-length buffer
    | InvalidFftLength       // np.fft.irfft asked for zero output points

  datatype Result<T> = Ok(value: T) | Err(error: Error)

  datatype Complex = Complex(re: real, im: real)

  type Positive = x: real | x > 0.0 witness 1.0

  /** The numerical routines whose values the model does not compute.
      `sin`, `square` and `sawtooth(phase, width)` stand for np.sin,
      scipy.signal.square and scipy.signal.sawtooth; `exp2(x)` for the float
      power 2 ** x; `sqrt` for np.sqrt on positive arguments; `irfft(X, k)`
      for sample k of np.fft.irfft(X) (its length is fixed by Irfft below). */
  datatype Numerics = Numerics(
    sin: real -> real,
    square: real -> real,
    sawtooth: (real, real) -> real,
    exp2: real -> real,
    sqrt: Positive -> Positive,
    irfft: (seq<Complex>, nat) -> real)

  /** The largest natural number not above a non-negative real, counted
      off one unit at a time. */
  function FloorNat(x: real): nat
    requires x >= 0.0
    decreases x.Floor
  {
    if x < 1.0 then 0 else 1 + FloorNat(x - 1.0)
  }

  lemma {:induction false} FloorNatBounds(x: real)
    requires x >= 0.0
    ensures FloorNat(x) as real <= x < FloorNat(x) as real + 1.0
    decreases x.Floor
  {
    if x >= 1.0 {
      FloorNatBounds(x - 1.0);
    }
  }

  /** Python's int() on a float: truncation toward zero, so the result has
      the sign of x (or is zero) and never a larger magnitude. */
  function Trunc(x: real): (k: int)
    ensures 0.0 <= x ==> 0 <= k
    ensures x < 0.0 ==> k <= 0
  {
    if x >= 0.0 then FloorNat(x) else 0 - FloorNat(-x)
  }

  /** int() drops the fraction: the result is the integer next to x on the
      side of zero, less than one away. */
  lemma TruncBounds(x: real)
    ensures 0.0 <= x ==> 0 <= Trunc(x) && Trunc(x) as real <= x < Trunc(x) as real + 1.0
    ensures x < 0.0 ==> Trunc(x) <= 0 && Trunc(x) as real - 1.0 < x <= Trunc(x) as real
  {
    if x >= 0.0 {
      FloorNatBounds(x);
    } else {
      FloorNatBounds(-x);
    }
  }

  function Abs(x: real): (r: real)
    ensures r >= 0.0 && (r == x || r == -x)
  {
    if x < 0.0 then -x else x
  }

  function Zeros(n: nat): (r: seq<real>)
    ensures |r| == n && forall i :: 0 <= i < n ==> r[i] == 0.0
  {
    seq(n, _ => 0.0)
  }

  /** Every sample multiplied by the same factor k. */
  function Scaled(k: real, s: seq<real>): (r: seq<real>)
    ensures |r| == |s| && forall i :: 0 <= i < |s| ==> r[i] == k * s[i]
  {
    seq(|s|, i requires 0 <= i < |s| => k * s[i])
  }

  /** Two equally long buffers multiplied sample by sample. */
  function Product(x: seq<real>, y: seq<real>): (r: seq<real>)
    requires |x| == |y|
    ensures |r| == |x| && forall i :: 0 <= i < |x| ==> r[i] == x[i] * y[i]
  {
    seq(|x|, i requires 0 <= i < |x| => x[i] * y[i])
  }

  /** The point a fraction t of the way from `start` to `stop`. */
  function Lerp(start: real, stop: real, t: real): real
  {
    start + t * (stop - start)
  }

  /** arange(num) * step + start: value j is start + j*step, laid out one
      value at a time. */
  function Ramp(start: real, step: real, num: nat): (r: seq<real>)
    ensures |r| == num
  {
    if num == 0 then [] else Ramp(start, step, num - 1) + [start + (num - 1) as real * step]
  }

  lemma {:induction false} RampAt(start: real, step: real, num: nat, i: int)
    requires 0 <= i < num
    ensures Ramp(start, step, num)[i] == start + i as real * step
  {
    if i < num - 1 {
      RampAt(start, step, num - 1, i);
    }
  }

  /** np.linspace(start, stop, num, endpoint) as numpy computes it: the
      divisor is num-1 with the endpoint and num without; the values are
      arange(num) * (stop-start)/div + start, and with the endpoint and at
      least two values the last one is set to `stop`. When the divisor is
      not positive (num <= 1) the only possible value is `start`. */
  function Linspace(start: real, stop: real, num: nat, endpoint: bool): (r: seq<real>)
    ensures |r| == num
  {
    var div := if endpoint then num - 1 else num;
    if div <= 0 then Ramp(start, 0.0, num)
    else if endpoint then Ramp(start, (stop - start) / div as real, num - 1) + [stop]
    else Ramp(start, (stop - start) / div as real, num)
  }

  /** Value i of a ramp with step delta/div is the point i/div of the way
      from start to start + delta. */
  lemma {:induction false} RampAsLerp(start: real, stop: real, div: nat, num: nat, i: int)
    requires div > 0 && 0 <= i < num
    ensures Ramp(start, (stop - start) / div as real, num)[i] == Lerp(start, stop, i as real / div as real)
  {
    RampAt(start, (stop - start) / div as real, num, i);
    StepsAsFraction(i as real, stop - start, div as real);
  }

  lemma FractionInUnit(i: int, div: int)
    requires 0 <= i <= div && div > 0
    ensures 0.0 <= i as real / div as real <= 1.0
  {
  }

  lemma StepsAsFraction(i: real, delta: real, div: real)
    requires div > 0.0
    ensures i * (delta / div) == (i / div) * delta
  {
  }

  /** Every linspace value is the point a fraction i/div of the way from
      start to stop (the endpoint itself at i == div). */
  lemma {:induction false} LinspaceAt(start: real, stop: real, num: nat, endpoint: bool, i: int)
    requires 0 <= i < num
    ensures var div := if endpoint then num - 1 else num;
      Linspace(start, stop, num, endpoint)[i] ==
        if div <= 0 then start else Lerp(start, stop, i as real / div as real)
  {
    var div := if endpoint then num - 1 else num;
    if div <= 0 {
      RampAt(start, 0.0, num, i);
    } else if endpoint && i == num - 1 {
      assert i as real == div as real;
      assert i as real / div as real == 1.0;
    } else {
      RampAsLerp(start, stop, div, if endpoint then num - 1 else num, i);
    }
  }

  /** linspace starts at `start` and, with the endpoint and at least two
      values, ends exactly at `stop`; with the endpoint and one value it is
      just [start]. */
  lemma LinspaceEnds(start: real, stop: real, num: nat, endpoint: bool)
    ensures num > 0 ==> Linspace(start, stop, num, endpoint)[0] == start
    ensures endpoint && num > 1 ==> Linspace(start, stop, num, endpoint)[num - 1] == stop
    ensures endpoint && num == 1 ==> Linspace(start, stop, num, endpoint) == [start]
  {
    if num > 0 {
      LinspaceAt(start, stop, num, endpoint, 0);
    }
    if endpoint && num == 1 {
      LinspaceAt(start, stop, num, endpoint, 0);
    }
  }

  lemma LerpBetween(start: real, stop: real, t: real)
    requires 0.0 <= t <= 1.0
    ensures start <= stop ==> start <= Lerp(start, stop, t) <= stop
    ensures stop <= start ==> stop <= Lerp(start, stop, t) <= start
  {
    var delta := stop - start;
    if start <= stop {
      MulNonNegative(t, delta);
      MulNonNegative(1.0 - t, delta);
      assert (1.0 - t) * delta == delta - t * delta;
    } else {
      MulNonNegative(t, -delta);
      MulNonNegative(1.0 - t, -delta);
      assert (1.0 - t) * -delta == t * delta - delta;
    }
  }

  lemma MulNonNegative(x: real, y: real)
    requires x >= 0.0 && y >= 0.0
    ensures x * y >= 0.0
  {
  }

  /** Equal factors give equal products (stated for the solver, which does
      not substitute inside products on its own). */
  lemma MulCongruence(k: real, a: real, b: real)
    requires a == b
    ensures k * a == k * b
  {
  }

  lemma Mul3Congruence(k: real, a: real, b: real, a': real, b': real)
    requires a == a' && b == b'
    ensures k * (a * b) == k * (a' * b')
  {
  }

  /** Multiplying by a factor in [0, 1] never increases magnitude. */
  lemma ScaleByFraction(x: real, e: real)
    requires 0.0 <= e <= 1.0
    ensures -Abs(x) <= x * e <= Abs(x)
  {
    if x >= 0.0 {
      MulNonNegative(x, e);
      MulNonNegative(x, 1.0 - e);
      assert x * (1.0 - e) == x - x * e;
    } else {
      MulNonNegative(-x, e);
      MulNonNegative(-x, 1.0 - e);
      assert -x * (1.0 - e) == -x + x * e;
    }
  }

  /** A product with a factor in [-1, 1] is no larger than the other factor. */
  lemma ProductBound(y: real, k: real, e: real)
    requires y == k * e && -1.0 <= e <= 1.0
    ensures Abs(y) <= Abs(k)
  {
    if e >= 0.0 {
      ScaleByFraction(k, e);
    } else {
      ScaleByFraction(k, -e);
      assert k * -e == -y;
    }
  }

  /** Every linspace value lies between the two ends. */
  lemma LinspaceBetween(start: real, stop: real, num: nat, endpoint: bool, i: int)
    requires 0 <= i < num
    ensures var v := Linspace(start, stop, num, endpoint)[i];
      (start <= stop ==> start <= v <= stop) && (stop <= start ==> stop <= v <= start)
  {
    LinspaceAt(start, stop, num, endpoint, i);
    var div := if endpoint then num - 1 else num;
    if div > 0 {
      FractionInUnit(i, div);
      LerpBetween(start, stop, i as real / div as real);
    }
  }
}

=== FILE: envelope.dfy ===
/** The ADSR envelope of renderer.py `apply_adsr`: the buffer length is cut
    into attack, decay, sustain and release segments by integer truncation,
    the envelope curve is laid out segment by segment, brought to exactly
    the buffer's length, and multiplied into the wave sample by sample. */
module Envelope {
  import opened Common

  /** The four envelope parameters: three time fractions and a level. */
  datatype Adsr = Adsr(attack: real, decay: real, sustain: real, release: real)

  /** The parameters generateWaveform passes for every note. */
  const Default: Adsr := Adsr(0.05, 0.1, 0.7, 0.1)

  /** The time fractions are not negative. This is stronger than numpy
      needs: it refuses only a truncated length int(n*f) below zero, so a
      fraction in (-1/n, 0) would give an empty segment. The only caller
      passes Default. */
  predicate WellFormed(p: Adsr)
  {
    p.attack >= 0.0 && p.decay >= 0.0 && p.release >= 0.0
  }

  /** Segment lengths, in samples. */
  datatype Split = Split(a: nat, d: nat, s: nat, r: nat)

  /** int(n * f) for a fraction f >= 0: the whole part of n * f. */
  function Portion(n: nat, f: real): nat
    requires f >= 0.0
  {
    Trunc(n as real * f)
  }

  /** A segment length is the whole part of n * f: at most n * f and less
      than one sample short of it. */
  lemma PortionBounds(n: nat, f: real)
    requires f >= 0.0
    ensures Portion(n, f) as real <= n as real * f < Portion(n, f) as real + 1.0
  {
    var x := n as real * f;
    var k := Portion(n, f);
    assert k == Trunc(x);
    MulNonNegative(n as real, f);
    TruncBounds(x);
  }

  /** a = int(n*attack), d = int(n*decay), r = int(n*release); sustain takes
      the rest, clamped to 0 when the other three overshoot n. */
  function Partition(n: nat, p: Adsr): (sp: Split)
    requires WellFormed(p)
    ensures sp.a + sp.d + sp.r <= n ==> sp.a + sp.d + sp.s + sp.r == n
    ensures sp.a + sp.d + sp.r > n ==> sp.s == 0
  {
    var a := Portion(n, p.attack);
    var d := Portion(n, p.decay);
    var r := Portion(n, p.release);
    var s := n - (a + d + r);
    Split(a, d, if s < 0 then 0 else s, r)
  }

  /** Each segment length is the whole part of its own fraction of n:
      a = int(n*attack), d = int(n*decay), r = int(n*release). */
  lemma PartitionLengths(n: nat, p: Adsr)
    requires WellFormed(p)
    ensures var sp := Partition(n, p);
      sp.a as real <= n as real * p.attack < sp.a as real + 1.0 &&
      sp.d as real <= n as real * p.decay < sp.d as real + 1.0 &&
      sp.r as real <= n as real * p.release < sp.r as real + 1.0
  {
    PortionBounds(n, p.attack);
    PortionBounds(n, p.decay);
    PortionBounds(n, p.release);
  }

  function AttackCurve(sp: Split): seq<real> { Linspace(0.0, 1.0, sp.a, false) }

  function DecayCurve(sp: Split, sustain: real): seq<real> { Linspace(1.0, sustain, sp.d, false) }

  function SustainCurve(sp: Split, sustain: real): seq<real> { seq(sp.s, _ => sustain) }

  function ReleaseCurve(sp: Split, sustain: real): seq<real> { Linspace(sustain, 0.0, sp.r, true) }

  /** The concatenated envelope before it is padded or cut: as long as the
      four segments together, and never shorter than the buffer. */
  function Curve(n: nat, p: Adsr): (c: seq<real>)
    requires WellFormed(p)
    ensures var sp := Partition(n, p); |c| == sp.a + sp.d + sp.s + sp.r
    ensures |c| >= n
  {
    var sp := Partition(n, p);
    AttackCurve(sp) + DecayCurve(sp, p.sustain) + SustainCurve(sp, p.sustain) + ReleaseCurve(sp, p.sustain)
  }

  /** np.pad(curve, (0, max(0, n - len(curve))), mode='constant')[:n]:
      zero padding up to n, then the first n values. */
  function Shape(n: nat, p: Adsr): (env: seq<real>)
    requires WellFormed(p)
    ensures |env| == n
  {
    var c := Curve(n, p);
    var padded := c + Zeros(PadLength(n, |c|));
    padded[..n]
  }

  /** max(0, n - len): how many zeros np.pad appends. */
  function PadLength(n: int, len: int): nat
  {
    if n - len > 0 then n - len else 0
  }

  /** apply_adsr: the wave times the envelope, sample by sample. */
  function ApplyAdsr(wave: seq<real>, p: Adsr): (out: seq<real>)
    requires WellFormed(p)
    ensures |out| == |wave|
    ensures forall i :: 0 <= i < |wave| ==> out[i] == wave[i] * Shape(|wave|, p)[i]
  {
    Product(wave, Shape(|wave|, p))
  }

  /** The concatenated segments are never shorter than n, so the padding
      step never adds anything. */
  lemma {:induction false} CurveCoversBuffer(n: nat, p: Adsr)
    requires WellFormed(p)
    ensures |Curve(n, p)| >= n
    ensures Shape(n, p) == Curve(n, p)[..n]
  {
    var c := Curve(n, p);
    var sp := Partition(n, p);
    assert |c| == sp.a + sp.d + sp.s + sp.r;
    assert (c + Zeros(0))[..n] == c[..n];
  }

  /** Without overshoot the four segments tile the buffer exactly. */
  lemma {:induction false} SegmentsTile(n: nat, p: Adsr)
    requires WellFormed(p)
    requires var sp := Partition(n, p); sp.a + sp.d + sp.r <= n
    ensures var sp := Partition(n, p); sp.a + sp.d + sp.s + sp.r == n
    ensures Shape(n, p) == Curve(n, p)
  {
    CurveCoversBuffer(n, p);
    var c := Curve(n, p);
    assert c[..n] == c;
  }

  /** On overshoot the sustain segment vanishes and the envelope is the
      first n values of attack, decay and release. */
  lemma {:induction false} OvershootCutsRelease(n: nat, p: Adsr)
    requires WellFormed(p)
    requires var sp := Partition(n, p); sp.a + sp.d + sp.r > n
    ensures var sp := Partition(n, p);
      sp.s == 0 &&
      Shape(n, p) == (AttackCurve(sp) + DecayCurve(sp, p.sustain) + ReleaseCurve(sp, p.sustain))[..n]
  {
    CurveCoversBuffer(n, p);
    var sp := Partition(n, p);
    assert SustainCurve(sp, p.sustain) == [];
    assert Curve(n, p) == AttackCurve(sp) + DecayCurve(sp, p.sustain) + ReleaseCurve(sp, p.sustain);
  }

  /** Value i of the envelope, read off the segment it falls in. */
  lemma {:induction false} ShapeAt(n: nat, p: Adsr, i: int)
    requires WellFormed(p) && 0 <= i < n
    ensures var sp := Partition(n, p);
      var env := Shape(n, p);
      (i < sp.a ==> env[i] == AttackCurve(sp)[i]) &&
      (sp.a <= i < sp.a + sp.d ==> env[i] == DecayCurve(sp, p.sustain)[i - sp.a]) &&
      (sp.a + sp.d <= i < sp.a + sp.d + sp.s ==> env[i] == p.sustain) &&
      (sp.a + sp.d + sp.s <= i ==> env[i] == ReleaseCurve(sp, p.sustain)[i - sp.a - sp.d - sp.s])
  {
    CurveCoversBuffer(n, p);
  }

  /** A non-empty attack makes the envelope start from silence. */
  lemma EnvelopeStartsAtZero(n: nat, p: Adsr)
    requires WellFormed(p) && Partition(n, p).a >= 1
    ensures n >= 1 && Shape(n, p)[0] == 0.0
  {
    var sp := Partition(n, p);
    PortionBounds(n, p.attack);
    ShapeAt(n, p, 0);
    LinspaceEnds(0.0, 1.0, sp.a, false);
  }

  /** Every sample of the sustain segment holds the sustain level. */
  lemma SustainIsFlat(n: nat, p: Adsr, i: int)
    requires WellFormed(p)
    requires var sp := Partition(n, p); sp.a + sp.d <= i < sp.a + sp.d + sp.s
    ensures i < n && Shape(n, p)[i] == p.sustain
  {
    ShapeAt(n, p, i);
  }

  /** With at least two release samples and no overshoot the envelope
      ends at exactly zero. */
  lemma ReleaseEndsAtZero(n: nat, p: Adsr)
    requires WellFormed(p)
    requires var sp := Partition(n, p); sp.r >= 2 && sp.a + sp.d + sp.r <= n
    ensures n >= 2 && Shape(n, p)[n - 1] == 0.0
  {
    var sp := Partition(n, p);
    ShapeAt(n, p, n - 1);
    LinspaceEnds(p.sustain, 0.0, sp.r, true);
  }

  /** With a single release sample linspace yields only its start, so the
      envelope ends on the sustain level, not on zero. */
  lemma SingleReleaseHoldsSustain(n: nat, p: Adsr)
    requires WellFormed(p)
    requires var sp := Partition(n, p); sp.r == 1 && sp.a + sp.d + sp.r <= n
    ensures n >= 1 && Shape(n, p)[n - 1] == p.sustain
  {
    var sp := Partition(n, p);
    ShapeAt(n, p, n - 1);
    LinspaceEnds(p.sustain, 0.0, sp.r, true);
  }

  /** With a sustain level in [0, 1] every envelope value is in [0, 1]. */
  lemma {:induction false} EnvelopeInUnitRange(n: nat, p: Adsr, i: int)
    requires WellFormed(p) && 0.0 <= p.sustain <= 1.0 && 0 <= i < n
    ensures 0.0 <= Shape(n, p)[i] <= 1.0
  {
    var sp := Partition(n, p);
    ShapeAt(n, p, i);
    if i < sp.a {
      LinspaceBetween(0.0, 1.0, sp.a, false, i);
    } else if i < sp.a + sp.d {
      LinspaceBetween(1.0, p.sustain, sp.d, false, i - sp.a);
    } else if i >= sp.a + sp.d + sp.s {
      LinspaceBetween(p.sustain, 0.0, sp.r, true, i - sp.a - sp.d - sp.s);
    }
  }

  /** Shaping never amplifies a sample when the sustain level is in [0, 1]. */
  lemma {:induction false} AdsrAttenuates(wave: seq<real>, p: Adsr, i: int)
    requires WellFormed(p) && 0.0 <= p.sustain <= 1.0 && 0 <= i < |wave|
    ensures Abs(ApplyAdsr(wave, p)[i]) <= Abs(wave[i])
  {
    var env := Shape(|wave|, p);
    var out := ApplyAdsr(wave, p);
    EnvelopeInUnitRange(|wave|, p, i);
    assert out[i] == wave[i] * env[i];
    ProductBound(out[i], wave[i], env[i]);
  }

  /** The default parameters never overshoot: the segments always tile. */
  lemma {:induction false} DefaultTiles(n: nat)
    ensures WellFormed(Default)
    ensures var sp := Partition(n, Default); sp.a + sp.d + sp.r <= n
  {
    var sp := Partition(n, Default);
    PortionBounds(n, 0.05);
    PortionBounds(n, 0.1);
    assert (sp.a + sp.d + sp.r) as real <= n as real * 0.25;
  }

  /** From 20 samples on, every default envelope starts and ends at zero,
      so consecutive notes meet in silence. */
  lemma {:induction false} DefaultEdgesSilent(n: nat)
    requires n >= 20
    ensures WellFormed(Default)
    ensures Shape(n, Default)[0] == 0.0 && Shape(n, Default)[n - 1] == 0.0
  {
    var sp := Partition(n, Default);
    assert sp.a >= 1 by {
      PortionBounds(n, 0.05);
    }
    assert sp.r >= 2 by {
      PortionBounds(n, 0.1);
    }
    DefaultTiles(n);
    EnvelopeStartsAtZero(n, Default);
    ReleaseEndsAtZero(n, Default);
  }
}

=== FILE: mix.dfy ===
/** External mixing, renderer.py `mixWithWav` without the file read: the
    16-bit samples of the external file are scaled to about [-1, 1], both
    buffers are cut to the shorter length, and the two are averaged. */
module Mix {
  import opened Common

  /** The divisor that takes a 16-bit sample to about [-1, 1]. */
  const Int16Scale: real := 32767.0

  function Min(a: int, b: int): int { if a < b then a else b }

  /** extWave / 32767.0: every external sample as a float, which scaled
      back by 32767 gives the integer sample again. */
  function ToFloat(ext: seq<int>): (r: seq<real>)
    ensures |r| == |ext|
    ensures forall i :: 0 <= i < |ext| ==> r[i] * Int16Scale == ext[i] as real
  {
    seq(|ext|, i requires 0 <= i < |ext| => ext[i] as real / Int16Scale)
  }

  /** 0.5 * (wave[:minLen] + extWave[:minLen]). */
  function MixWithWav(wave: seq<real>, ext: seq<int>): (r: seq<real>)
    ensures |r| == Min(|wave|, |ext|)
    ensures |r| <= |wave| && |r| <= |ext| && (|r| == |wave| || |r| == |ext|)
    ensures forall i :: 0 <= i < |r| ==> r[i] == 0.5 * (wave[i] + ext[i] as real / Int16Scale)
  {
    var scaled := ToFloat(ext);
    var minLen := Min(|wave|, |ext|);
    seq(minLen, i requires 0 <= i < minLen => 0.5 * (wave[i] + scaled[i]))
  }

  /** Mixing a buffer with a file holding the same samples gives the buffer
      back, cut to the file's length. */
  lemma {:induction false} MixWithItself(wave: seq<real>, ext: seq<int>)
    requires |ext| <= |wave|
    requires forall i :: 0 <= i < |ext| ==> ext[i] as real / Int16Scale == wave[i]
    ensures MixWithWav(wave, ext) == wave[..|ext|]
  {
    var r := MixWithWav(wave, ext);
    forall i | 0 <= i < |r| ensures r[i] == wave[i] {
      assert r[i] == 0.5 * (wave[i] + wave[i]);
    }
  }

  /** A silent file halves the buffer, over the file's length. */
  lemma {:induction false} MixWithSilence(wave: seq<real>, ext: seq<int>)
    requires forall i :: 0 <= i < |ext| ==> ext[i] == 0
    ensures var r := MixWithWav(wave, ext);
      forall i :: 0 <= i < |r| ==> r[i] == wave[i] / 2.0
  {
  }

  /** A buffer in [-1, 1] mixed with a file whose samples stay within
      +-32767 stays in [-1, 1]; only the sample -32768 reaches slightly
      below -1. */
  lemma {:induction false} MixWithinUnit(wave: seq<real>, ext: seq<int>, i: int)
    requires 0 <= i < |wave| && 0 <= i < |ext|
    requires -1.0 <= wave[i] <= 1.0 && -32767 <= ext[i] <= 32767
    ensures -1.0 <= MixWithWav(wave, ext)[i] <= 1.0
  {
    var e := ext[i] as real / Int16Scale;
    assert -1.0 <= e <= 1.0;
  }

  /** The bound of MixWithinUnit cannot take in the whole 16-bit range
      (-32768 .. 32767): a full-scale negative sample mixed with the lowest
      16-bit value -32768 goes below -1. */
  lemma Int16LowestExceedsUnit()
    ensures MixWithWav([-1.0], [-32768])[0] < -1.0
  {
    var r := MixWithWav([-1.0], [-32768]);
    assert r[0] == 0.5 * (-1.0 + (-32768) as real / Int16Scale);
  }
}

=== FILE: noise.dfy ===
/** Noise mixing, renderer.py `add_noise`: a white, pink or brown noise
    buffer as long as the wave, scaled to a peak of one, is added to the
    wave at the given level. The random draws are the stream `gauss` (draw k
    is gauss(k), in the order numpy makes them) and the inverse FFT's sample
    values come from `lib.irfft`; the model computes everything else. */
module Noise {
  import opened Common

  datatype NoiseKind = White | Pink | Brown

  /** The default arguments of add_noise; the menu passes only the type,
      so its noise is always added at the default level. */
  const DefaultNoiseType: string := "pink"
  const DefaultNoiseLevel: real := 0.08

  /** The if/elif chain on the noise type; anything else is unsupported. */
  function ParseNoise(noiseType: string): (kind: Result<NoiseKind>)
    ensures kind.Err? ==> kind.error == UnsupportedNoiseType
    ensures kind.Ok? <==> noiseType in ["white", "pink", "brown"]
  {
    if noiseType == "white" then Ok(White)
    else if noiseType == "pink" then Ok(Pink)
    else if noiseType == "brown" then Ok(Brown)
    else Err(UnsupportedNoiseType)
  }

  /** The name each noise kind is selected by. */
  function KindName(kind: NoiseKind): string
  {
    match kind
    case White => "white"
    case Pink => "pink"
    case Brown => "brown"
  }

  function Max(x: real, y: real): real { if x < y then y else x }

  /** np.max(np.abs(s)): the largest magnitude in a non-empty buffer. */
  function Peak(s: seq<real>): (p: real)
    requires |s| > 0
    ensures forall i :: 0 <= i < |s| ==> Abs(s[i]) <= p
    ensures exists j :: 0 <= j < |s| && p == Abs(s[j])
    decreases |s|
  {
    if |s| == 1 then Abs(s[0])
    else
      var init := s[..|s| - 1];
      var q := Peak(init);
      assert forall i :: 0 <= i < |init| ==> init[i] == s[i];
      Max(q, Abs(s[|s| - 1]))
  }

  /** s / np.max(np.abs(s)) for a buffer whose peak is not zero. */
  function Normalize(s: seq<real>): (r: seq<real>)
    requires |s| > 0 && Peak(s) != 0.0
    ensures |r| == |s|
  {
    DivideAll(s, Peak(s))
  }

  /** Every sample divided by the same nonzero divisor. */
  function DivideAll(s: seq<real>, p: real): (r: seq<real>)
    requires p != 0.0
    ensures |r| == |s|
  {
    seq(|s|, i requires 0 <= i < |s| => s[i] / p)
  }

  /** Normalising only divides by the peak: scaling the result back up by
      the peak gives the buffer again. */
  lemma {:induction false} NormalizeScalesBack(s: seq<real>, p: real, i: int)
    requires |s| > 0 && p == Peak(s) && p != 0.0 && 0 <= i < |s|
    ensures Normalize(s)[i] * p == s[i]
  {
    ScaleBack(Normalize(s)[i], s[i], p);
  }

  /** A value obtained by dividing by p gives the dividend back when
      multiplied by p. */
  lemma ScaleBack(q: real, x: real, p: real)
    requires p != 0.0 && q == x / p
    ensures q * p == x
  {
  }

  /** The first n draws of the stream: np.random.normal(0, 1, n). */
  function Draws(gauss: nat -> real, start: nat, n: nat): (r: seq<real>)
    ensures |r| == n && forall k :: 0 <= k < n ==> r[k] == gauss(start + k)
  {
    seq(n, k requires 0 <= k < n => gauss(start + k))
  }

  /** The sum of a buffer. */
  function Sum(s: seq<real>): real
    decreases |s|
  {
    if s == [] then 0.0 else Sum(s[..|s| - 1]) + s[|s| - 1]
  }

  /** np.cumsum: running totals, built one sample at a time. */
  function CumSum(s: seq<real>): (r: seq<real>)
    ensures |r| == |s|
    decreases |s|
  {
    if s == [] then []
    else
      var c := CumSum(s[..|s| - 1]);
      c + [(if c == [] then 0.0 else c[|c| - 1]) + s[|s| - 1]]
  }

  /** n // 2 + 1 + n % 2: the number of spectrum bins the pink branch draws. */
  function PinkBins(n: nat): nat
  {
    n / 2 + 1 + n % 2
  }

  /** X / S: bin k has real part draw k and imaginary part draw m + k (the
      real parts are drawn first), both divided by sqrt(k + 1). */
  function PinkSpectrum(lib: Numerics, gauss: nat -> real, n: nat): (x: seq<Complex>)
    ensures |x| == PinkBins(n)
  {
    var m := PinkBins(n);
    seq(m, k requires 0 <= k < m =>
      Complex(gauss(k) / lib.sqrt((k + 1) as real), gauss(m + k) / lib.sqrt((k + 1) as real)))
  }

  /** np.fft.irfft(X) with the default output length 2 * (len(X) - 1);
      numpy refuses a one-bin spectrum, which would ask for zero points. */
  function Irfft(lib: Numerics, x: seq<Complex>): (y: seq<real>)
    requires |x| >= 2
    ensures |y| == 2 * (|x| - 1)
  {
    seq(2 * (|x| - 1), k requires 0 <= k < 2 * (|x| - 1) => lib.irfft(x, k))
  }

  /** The pink noise before scaling: the inverse transform of the shaped
      spectrum, with its last sample dropped when n is odd. Odd and even
      lengths both come out at exactly n samples. For n == 0 the branch
      raises in irfft, so it is defined from n == 1 on. */
  function PinkRaw(lib: Numerics, gauss: nat -> real, n: nat): (y: seq<real>)
    requires n >= 1
    ensures |y| == n
    ensures forall i :: 0 <= i < n ==> y[i] == lib.irfft(PinkSpectrum(lib, gauss, n), i)
  {
    var full := Irfft(lib, PinkSpectrum(lib, gauss, n));
    if n % 2 == 1 then full[..|full| - 1] else full
  }

  /** The noise buffer before it is divided by its peak: white draws, the
      pink transform, or the running sum of white draws (brown). */
  function RawNoise(lib: Numerics, gauss: nat -> real, kind: NoiseKind, n: nat): (y: seq<real>)
    requires kind == Pink ==> n >= 1
    ensures |y| == n
  {
    match kind
    case White => Draws(gauss, 0, n)
    case Pink => PinkRaw(lib, gauss, n)
    case Brown => CumSum(Draws(gauss, 0, n))
  }

  /** The draws leave a noise buffer that is not all zero; on an all-zero
      buffer numpy divides 0 by 0 and the model does not follow it there. */
  predicate PeakNonZero(lib: Numerics, gauss: nat -> real, kind: NoiseKind, n: nat)
  {
    n > 0 && Peak(RawNoise(lib, gauss, kind, n)) != 0.0
  }

  /** The noise that is added: pink and brown are divided by their peak in
      their own branch and again after the branch, white only after it. */
  function NoiseBuffer(lib: Numerics, gauss: nat -> real, kind: NoiseKind, n: nat): (noise: seq<real>)
    requires PeakNonZero(lib, gauss, kind, n)
    ensures |noise| == n
  {
    var raw := RawNoise(lib, gauss, kind, n);
    if kind == White then Normalize(raw)
    else
      NormalizedPeakIsOne(raw);
      Normalize(Normalize(raw))
  }

  /** wave + noise * level, sample by sample. */
  function AddScaled(wave: seq<real>, noise: seq<real>, level: real): (r: seq<real>)
    requires |noise| == |wave|
    ensures |r| == |wave|
    ensures forall i :: 0 <= i < |wave| ==> r[i] == wave[i] + noise[i] * level
  {
    seq(|wave|, i requires 0 <= i < |wave| => wave[i] + noise[i] * level)
  }

  /** The precondition of add_noise in the model: a supported type on a
      non-empty wave draws a noise buffer that is not all zero. */
  predicate NoiseDefined(lib: Numerics, gauss: nat -> real, noiseType: string, n: nat)
  {
    ParseNoise(noiseType).Ok? && n > 0 ==> PeakNonZero(lib, gauss, ParseNoise(noiseType).value, n)
  }

  /** add_noise: an unsupported type is refused first; an empty wave fails
      in np.max (white, brown) or in irfft, which is asked for zero points
      (pink); otherwise sample i is wave[i] + noise[i] * level. */
  function AddNoise(lib: Numerics, gauss: nat -> real, wave: seq<real>, noiseType: string, level: real): (r: Result<seq<real>>)
    requires NoiseDefined(lib, gauss, noiseType, |wave|)
    ensures ParseNoise(noiseType).Err? ==> r == Err(UnsupportedNoiseType)
    ensures ParseNoise(noiseType) == Ok(Pink) && |wave| == 0 ==> r == Err(InvalidFftLength)
    ensures ParseNoise(noiseType).Ok? && ParseNoise(noiseType).value != Pink && |wave| == 0 ==> r == Err(EmptyMaximum)
    ensures ParseNoise(noiseType).Ok? && |wave| > 0 ==>
      r == Ok(AddScaled(wave, NoiseBuffer(lib, gauss, ParseNoise(noiseType).value, |wave|), level))
  {
    var n := |wave|;
    match ParseNoise(noiseType)
    case Err(e) => Err(e)
    case Ok(kind) =>
      if n == 0 then Err(if kind == Pink then InvalidFftLength else EmptyMaximum)
      else Ok(AddScaled(wave, NoiseBuffer(lib, gauss, kind, n), level))
  }

  /** The result is as long as the wave, and each sample is the wave's
      sample plus the noise's sample times the level. */
  lemma {:induction false} NoisySamples(lib: Numerics, gauss: nat -> real, wave: seq<real>, noiseType: string, level: real)
    requires NoiseDefined(lib, gauss, noiseType, |wave|)
    ensures var r := AddNoise(lib, gauss, wave, noiseType, level);
      r.Ok? <==> noiseType in ["white", "pink", "brown"] && |wave| > 0
    ensures var r := AddNoise(lib, gauss, wave, noiseType, level);
      r.Ok? ==> (|r.value| == |wave| &&
        forall i :: 0 <= i < |wave| ==>
          r.value[i] == wave[i] + NoiseBuffer(lib, gauss, ParseNoise(noiseType).value, |wave|)[i] * level)
  {
  }

  /** Selecting a noise kind by its own name gives it back. */
  lemma ParseByName(kind: NoiseKind)
    ensures ParseNoise(KindName(kind)) == Ok(kind)
  {
  }

  /** Dividing by a peak that bounds a sample keeps the sample in [-1, 1],
      and a sample at the peak becomes 1 in magnitude. */
  lemma DivideByPeak(x: real, p: real)
    requires p > 0.0 && Abs(x) <= p
    ensures -1.0 <= x / p <= 1.0
    ensures Abs(x) == p ==> Abs(x / p) == 1.0
  {
    var q := x / p;
    assert q * p == x;
    assert (1.0 - q) * p == p - x;
    assert (1.0 + q) * p == p + x;
    if x == p {
      assert (q - 1.0) * p == 0.0;
    } else if x == -p {
      assert (q + 1.0) * p == 0.0;
    }
  }

  /** A normalised buffer lies within [-1, 1] and reaches magnitude 1. */
  lemma {:induction false} NormalizedWithinUnit(s: seq<real>)
    requires |s| > 0 && Peak(s) != 0.0
    ensures forall i :: 0 <= i < |s| ==> -1.0 <= Normalize(s)[i] <= 1.0
    ensures exists j :: 0 <= j < |s| && Abs(Normalize(s)[j]) == 1.0
  {
    var p := Peak(s);
    var r := Normalize(s);
    forall i | 0 <= i < |s| ensures -1.0 <= r[i] <= 1.0 {
      DivideByPeak(s[i], p);
    }
    var j :| 0 <= j < |s| && p == Abs(s[j]);
    DivideByPeak(s[j], p);
    assert r[j] == s[j] / p;
  }

  /** After normalisation the peak is exactly 1. */
  lemma {:induction false} NormalizedPeakIsOne(s: seq<real>)
    requires |s| > 0 && Peak(s) != 0.0
    ensures Peak(Normalize(s)) == 1.0
  {
    var r := Normalize(s);
    NormalizedWithinUnit(s);
    var j :| 0 <= j < |s| && Abs(r[j]) == 1.0;
    var k :| 0 <= k < |r| && Peak(r) == Abs(r[k]);
    assert Abs(r[k]) <= 1.0;
  }

  /** Normalising twice is the same as normalising once, so the second
      division in the pink and brown branches changes nothing. */
  lemma {:induction false} NormalizeIdempotent(s: seq<real>)
    requires |s| > 0 && Peak(s) != 0.0
    ensures Peak(Normalize(s)) != 0.0 && Normalize(Normalize(s)) == Normalize(s)
  {
    NormalizedPeakIsOne(s);
    var r := Normalize(s);
    assert forall i :: 0 <= i < |r| ==> Normalize(r)[i] == r[i] / 1.0;
  }

  /** Every noise buffer is scaled to [-1, 1] and reaches full scale. */
  lemma {:induction false} NoiseWithinUnit(lib: Numerics, gauss: nat -> real, kind: NoiseKind, n: nat)
    requires PeakNonZero(lib, gauss, kind, n)
    ensures forall i :: 0 <= i < n ==> -1.0 <= NoiseBuffer(lib, gauss, kind, n)[i] <= 1.0
    ensures Peak(NoiseBuffer(lib, gauss, kind, n)) == 1.0
  {
    var raw := RawNoise(lib, gauss, kind, n);
    NormalizedWithinUnit(raw);
    NormalizedPeakIsOne(raw);
    if kind != White {
      NormalizeIdempotent(raw);
    }
  }

  /** Adding noise in [-1, 1] at a level moves a sample by at most the
      level's magnitude. */
  lemma AddScaledWithinLevel(wave: seq<real>, noise: seq<real>, level: real, i: int)
    requires |noise| == |wave| && 0 <= i < |wave| && -1.0 <= noise[i] <= 1.0
    ensures Abs(AddScaled(wave, noise, level)[i] - wave[i]) <= Abs(level)
  {
    var d := AddScaled(wave, noise, level)[i] - wave[i];
    assert d == level * noise[i];
    ProductBound(d, level, noise[i]);
  }

  /** Each noisy sample is within `level` of the clean one. */
  lemma {:induction false} NoiseWithinLevel(lib: Numerics, gauss: nat -> real, wave: seq<real>, noiseType: string, level: real, i: int)
    requires NoiseDefined(lib, gauss, noiseType, |wave|)
    requires AddNoise(lib, gauss, wave, noiseType, level).Ok? && 0 <= i < |wave|
    ensures Abs(AddNoise(lib, gauss, wave, noiseType, level).value[i] - wave[i]) <= Abs(level)
  {
    var kind := ParseNoise(noiseType).value;
    var noise := NoiseBuffer(lib, gauss, kind, |wave|);
    NoiseWithinUnit(lib, gauss, kind, |wave|);
    AddScaledWithinLevel(wave, noise, level, i);
  }

  /** A zero level leaves the wave unchanged. */
  lemma {:induction false} ZeroLevelIsIdentity(lib: Numerics, gauss: nat -> real, wave: seq<real>, noiseType: string)
    requires NoiseDefined(lib, gauss, noiseType, |wave|)
    requires AddNoise(lib, gauss, wave, noiseType, 0.0).Ok?
    ensures AddNoise(lib, gauss, wave, noiseType, 0.0).value == wave
  {
    var out := AddNoise(lib, gauss, wave, noiseType, 0.0).value;
    forall i | 0 <= i < |wave| ensures out[i] == wave[i] {
      NoiseWithinLevel(lib, gauss, wave, noiseType, 0.0, i);
    }
  }

  /** Brown noise is a random walk: it starts at the first draw and each
      step adds the next draw. */
  lemma {:induction false} CumSumSteps(s: seq<real>)
    ensures |s| > 0 ==> CumSum(s)[0] == s[0]
    ensures forall i :: 0 < i < |s| ==> CumSum(s)[i] == CumSum(s)[i - 1] + s[i]
    decreases |s|
  {
    if s != [] {
      var init := s[..|s| - 1];
      CumSumSteps(init);
      assert forall i :: 0 <= i < |init| ==> init[i] == s[i];
      assert forall i :: 0 <= i < |init| ==> CumSum(s)[i] == CumSum(init)[i];
    }
  }

  /** Sample i of the cumulative sum is the sum of the first i + 1 samples. */
  lemma {:induction false} CumSumIsPrefixSum(s: seq<real>, i: int)
    requires 0 <= i < |s|
    ensures CumSum(s)[i] == Sum(s[..i + 1])
    decreases |s|
  {
    var init := s[..|s| - 1];
    if i < |s| - 1 {
      CumSumIsPrefixSum(init, i);
      assert init[..i + 1] == s[..i + 1];
    } else {
      assert s[..i + 1] == s;
      assert s[..i + 1][..i] == init;
      if i > 0 {
        CumSumIsPrefixSum(init, i - 1);
        assert init[..i] == init;
      }
    }
  }

  /** The pink spectrum reads exactly draws 0 .. 2m-1: two streams that
      agree on them give the same spectrum. */
  lemma PinkSpectrumReadsDraws(lib: Numerics, g1: nat -> real, g2: nat -> real, n: nat)
    requires forall k: nat :: k < 2 * PinkBins(n) ==> g1(k) == g2(k)
    ensures PinkSpectrum(lib, g1, n) == PinkSpectrum(lib, g2, n)
  {
  }

  /** Undoing the 1/sqrt(k + 1) shaping of bin k recovers the two draws it
      was made from: draw k as the real part, draw m + k as the imaginary. */
  lemma PinkBinUnshaped(lib: Numerics, gauss: nat -> real, n: nat, k: nat)
    requires k < PinkBins(n)
    ensures var x := PinkSpectrum(lib, gauss, n)[k];
      var s := lib.sqrt((k + 1) as real);
      x.re * s == gauss(k) && x.im * s == gauss(PinkBins(n) + k)
  {
    var s := lib.sqrt((k + 1) as real);
    var x := PinkSpectrum(lib, gauss, n)[k];
    assert x.re == gauss(k) / s;
    assert x.im == gauss(PinkBins(n) + k) / s;
  }

  /** An empty wave gets no noise: np.max has nothing to reduce for white
      and brown noise, and irfft is asked for zero points for pink. */
  lemma EmptyWaveFails(lib: Numerics, gauss: nat -> real, noiseType: string, level: real)
    requires noiseType in ["white", "pink", "brown"]
    ensures var r := AddNoise(lib, gauss, [], noiseType, level);
      r.Err? && (r.error == InvalidFftLength || r.error == EmptyMaximum)
  {
  }

  /** The default noise type is supported: a call with no type argument
      succeeds on every non-empty wave. */
  lemma DefaultTypeSupported(lib: Numerics, gauss: nat -> real, wave: seq<real>)
    requires NoiseDefined(lib, gauss, DefaultNoiseType, |wave|) && |wave| > 0
    ensures ParseNoise(DefaultNoiseType) == Ok(Pink)
    ensures AddNoise(lib, gauss, wave, DefaultNoiseType, DefaultNoiseLevel).Ok?
  {
  }

  /** At the default level, as the menu always calls it, every noisy
      sample stays within 0.08 of the clean one. */
  lemma {:induction false} DefaultLevelWithin(lib: Numerics, gauss: nat -> real, wave: seq<real>, noiseType: string, i: int)
    requires NoiseDefined(lib, gauss, noiseType, |wave|)
    requires AddNoise(lib, gauss, wave, noiseType, DefaultNoiseLevel).Ok? && 0 <= i < |wave|
    ensures Abs(AddNoise(lib, gauss, wave, noiseType, DefaultNoiseLevel).value[i] - wave[i]) <= 0.08
  {
    NoiseWithinLevel(lib, gauss, wave, noiseType, DefaultNoiseLevel, i);
  }
}

=== FILE: oscillator.dfy ===
/** Per-note synthesis, renderer.py `generateWaveform`: a time axis of
    int(sampleRate * duration) samples, an oscillator chosen by name, the
    default ADSR envelope, then the volume. */
module Oscillator {
  import opened Common
  import Envelope

  datatype Waveform = Sine | Square | Triangle | Sawtooth

  /** The if/elif chain on the waveform name. "sawtooth" and every name the
      chain does not recognise take the same (sawtooth) branch. */
  function Select(name: string): (w: Waveform)
    ensures name in ["sine", "square", "triangle", "sawtooth"] ==> Name(w) == name
    ensures name !in ["sine", "square", "triangle", "sawtooth"] ==> w == Sawtooth
  {
    if name == "sine" then Sine
    else if name == "square" then Square
    else if name == "triangle" then Triangle
    else Sawtooth
  }

  /** The name each waveform is selected by. */
  function Name(w: Waveform): string
  {
    match w
    case Sine => "sine"
    case Square => "square"
    case Triangle => "triangle"
    case Sawtooth => "sawtooth"
  }

  /** One oscillator value at a phase: np.sin, signal.square, and
      signal.sawtooth with width 0.5 (triangle) or its default width 1;
      every waveform stays in [-1, 1] when the library's oscillators do. */
  function Oscillate(lib: Numerics, w: Waveform, phase: real): (v: real)
    ensures OscillatorsBounded(lib) ==> -1.0 <= v <= 1.0
  {
    match w
    case Sine => lib.sin(phase)
    case Square => lib.square(phase)
    case Triangle => lib.sawtooth(phase, 0.5)
    case Sawtooth => lib.sawtooth(phase, 1.0)
  }

  /** int(sampleRate * duration): truncated, not rounded. A non-negative
      duration gives the whole number of samples that fit in it; a negative
      one gives zero or a negative count, less than one sample above it. */
  function SampleCount(duration: real): (k: int)
    ensures 0.0 <= duration ==>
      0 <= k && k as real <= SampleRate as real * duration < k as real + 1.0
    ensures duration < 0.0 ==>
      k <= 0 && k as real - 1.0 < SampleRate as real * duration <= k as real
  {
    TruncBounds(SampleRate as real * duration);
    Trunc(SampleRate as real * duration)
  }

  /** np.linspace(0, duration, count, False): the half-open time axis, on
      which time i is i*duration/count seconds. */
  function TimeAxis(duration: real, count: nat): (t: seq<real>)
    ensures |t| == count
    ensures forall i :: 0 <= i < count ==> t[i] == (i as real / count as real) * duration
  {
    HalfOpenAxis(duration, count);
    Linspace(0.0, duration, count, false)
  }

  /** Every value of linspace(0, duration, count, False) is the fraction
      i/count of the duration. */
  lemma HalfOpenAxis(duration: real, count: nat)
    ensures forall i :: 0 <= i < count ==>
      Linspace(0.0, duration, count, false)[i] == (i as real / count as real) * duration
  {
    forall i | 0 <= i < count
      ensures Linspace(0.0, duration, count, false)[i] == (i as real / count as real) * duration
    {
      LinspaceAt(0.0, duration, count, false, i);
    }
  }

  /** The oscillator argument 2*pi*f*t. */
  function Phase(frequency: real, t: real): real
  {
    2.0 * Pi * frequency * t
  }

  /** The raw oscillator buffer of `count` samples, before envelope and
      volume. */
  function RawWave(lib: Numerics, w: Waveform, frequency: real, duration: real, count: nat): (wave: seq<real>)
    ensures |wave| == count
    ensures forall i :: 0 <= i < count ==>
      wave[i] == Oscillate(lib, w, Phase(frequency, TimeAxis(duration, count)[i]))
  {
    var t := TimeAxis(duration, count);
    seq(count, i requires 0 <= i < count => Oscillate(lib, w, Phase(frequency, t[i])))
  }

  /** A note of waveform w and `count` samples, shaped by the envelope p and
      scaled by volume. */
  function Synthesize(lib: Numerics, w: Waveform, frequency: real, duration: real, count: nat, volume: real, p: Envelope.Adsr): (note: seq<real>)
    requires Envelope.WellFormed(p)
    ensures |note| == count
  {
    Scaled(volume, Envelope.ApplyAdsr(RawWave(lib, w, frequency, duration, count), p))
  }

  /** generateWaveform: int(sampleRate * duration) samples of the named
      waveform under the fixed default envelope. numpy refuses a negative
      sample count, so callers reach it only with a duration whose count is
      not negative. */
  function GenerateWaveform(lib: Numerics, frequency: real, duration: real, waveform: string, volume: real): (note: seq<real>)
    requires SampleCount(duration) >= 0
    ensures |note| == SampleCount(duration)
  {
    Synthesize(lib, Select(waveform), frequency, duration, SampleCount(duration), volume, Envelope.Default)
  }

  /** Selecting a waveform by its own name gives it back. */
  lemma SelectByName(w: Waveform)
    ensures Select(Name(w)) == w
  {
  }

  /** Sample i of a note is the volume times the oscillator at time i of
      the axis times the envelope value at i. */
  lemma {:induction false} SynthesizedSampleAt(lib: Numerics, w: Waveform, frequency: real, duration: real, count: nat, volume: real, p: Envelope.Adsr, i: int)
    requires Envelope.WellFormed(p) && 0 <= i < count
    ensures Synthesize(lib, w, frequency, duration, count, volume, p)[i] ==
      volume * (Oscillate(lib, w, Phase(frequency, TimeAxis(duration, count)[i])) * Envelope.Shape(count, p)[i])
  {
    var raw := RawWave(lib, w, frequency, duration, count);
    ShapedSampleAt(volume, raw, p, i);
    Mul3Congruence(volume, raw[i], Envelope.Shape(|raw|, p)[i],
      Oscillate(lib, w, Phase(frequency, TimeAxis(duration, count)[i])), Envelope.Shape(count, p)[i]);
  }

  /** Shaping then scaling multiplies sample i by the envelope value at i
      and by the volume. */
  lemma ShapedSampleAt(volume: real, raw: seq<real>, p: Envelope.Adsr, i: int)
    requires Envelope.WellFormed(p) && 0 <= i < |raw|
    ensures Scaled(volume, Envelope.ApplyAdsr(raw, p))[i] == volume * (raw[i] * Envelope.Shape(|raw|, p)[i])
  {
    var shaped := Envelope.ApplyAdsr(raw, p);
    MulCongruence(volume, shaped[i], raw[i] * Envelope.Shape(|raw|, p)[i]);
  }

  /** generateWaveform's sample i, for the note's count of samples: volume
      times the selected oscillator times the default envelope. */
  lemma {:induction false} NoteSampleAt(lib: Numerics, frequency: real, duration: real, waveform: string, volume: real, count: nat, i: int)
    requires count == SampleCount(duration) && 0 <= i < count
    ensures GenerateWaveform(lib, frequency, duration, waveform, volume)[i] ==
      volume * (Oscillate(lib, Select(waveform), Phase(frequency, TimeAxis(duration, count)[i]))
                * Envelope.Shape(count, Envelope.Default)[i])
  {
    SynthesizedSampleAt(lib, Select(waveform), frequency, duration, count, volume, Envelope.Default, i);
  }

  /** A name outside sine/square/triangle/sawtooth renders exactly as
      sawtooth does. */
  lemma UnknownWaveformIsSawtooth(lib: Numerics, frequency: real, duration: real, waveform: string, volume: real)
    requires SampleCount(duration) >= 0
    requires waveform !in ["sine", "square", "triangle", "sawtooth"]
    ensures GenerateWaveform(lib, frequency, duration, waveform, volume) ==
            GenerateWaveform(lib, frequency, duration, "sawtooth", volume)
  {
  }

  /** Where the envelope is zero the note is silent. */
  lemma {:induction false} SilentWhereEnvelopeIsZero(lib: Numerics, w: Waveform, frequency: real, duration: real, count: nat, volume: real, p: Envelope.Adsr, i: int)
    requires Envelope.WellFormed(p) && 0 <= i < count
    requires Envelope.Shape(count, p)[i] == 0.0
    ensures Synthesize(lib, w, frequency, duration, count, volume, p)[i] == 0.0
  {
    SynthesizedSampleAt(lib, w, frequency, duration, count, volume, p, i);
  }

  /** Notes of at least 20 samples start and end on a zero sample, since the
      default envelope is zero there. */
  lemma {:induction false} NoteEdgesSilent(lib: Numerics, frequency: real, duration: real, waveform: string, volume: real)
    requires SampleCount(duration) >= 20
    ensures var note := GenerateWaveform(lib, frequency, duration, waveform, volume);
      note[0] == 0.0 && note[|note| - 1] == 0.0
  {
    var count := SampleCount(duration);
    Envelope.DefaultEdgesSilent(count);
    SilentWhereEnvelopeIsZero(lib, Select(waveform), frequency, duration, count, volume, Envelope.Default, 0);
    SilentWhereEnvelopeIsZero(lib, Select(waveform), frequency, duration, count, volume, Envelope.Default, count - 1);
  }

  /** The library's oscillators stay within [-1, 1]. */
  ghost predicate OscillatorsBounded(lib: Numerics)
  {
    (forall x :: -1.0 <= lib.sin(x) <= 1.0) &&
    (forall x :: -1.0 <= lib.square(x) <= 1.0) &&
    (forall x, width :: -1.0 <= lib.sawtooth(x, width) <= 1.0)
  }

  /** Bounded oscillators give a raw buffer within [-1, 1]. */
  lemma RawWaveBounded(lib: Numerics, w: Waveform, frequency: real, duration: real, count: nat, i: int)
    requires OscillatorsBounded(lib) && 0 <= i < count
    ensures -1.0 <= RawWave(lib, w, frequency, duration, count)[i] <= 1.0
  {
  }

  /** With bounded oscillators and a sustain level in [0, 1] no sample of
      a note exceeds its volume in magnitude. */
  lemma {:induction false} SynthesizedWithinVolume(lib: Numerics, w: Waveform, frequency: real, duration: real, count: nat, volume: real, p: Envelope.Adsr, i: int)
    requires OscillatorsBounded(lib) && Envelope.WellFormed(p) && 0.0 <= p.sustain <= 1.0 && 0 <= i < count
    ensures Abs(Synthesize(lib, w, frequency, duration, count, volume, p)[i]) <= Abs(volume)
  {
    var raw := RawWave(lib, w, frequency, duration, count);
    RawWaveBounded(lib, w, frequency, duration, count, i);
    ShapedWithinVolume(raw, p, volume, i);
  }

  /** Shaping a sample in [-1, 1] and scaling it by volume keeps it within
      the volume. */
  lemma ShapedWithinVolume(raw: seq<real>, p: Envelope.Adsr, volume: real, i: int)
    requires Envelope.WellFormed(p) && 0.0 <= p.sustain <= 1.0 && 0 <= i < |raw|
    requires -1.0 <= raw[i] <= 1.0
    ensures Abs(Scaled(volume, Envelope.ApplyAdsr(raw, p))[i]) <= Abs(volume)
  {
    Envelope.AdsrAttenuates(raw, p, i);
    var e := Envelope.ApplyAdsr(raw, p)[i];
    ProductBound(Scaled(volume, Envelope.ApplyAdsr(raw, p))[i], volume, e);
  }

  /** generateWaveform never exceeds its volume when the oscillators are bounded. */
  lemma {:induction false} NoteWithinVolume(lib: Numerics, frequency: real, duration: real, waveform: string, volume: real, i: int)
    requires OscillatorsBounded(lib)
    requires SampleCount(duration) >= 0 && 0 <= i < SampleCount(duration)
    ensures Abs(GenerateWaveform(lib, frequency, duration, waveform, volume)[i]) <= Abs(volume)
  {
    SynthesizedWithinVolume(lib, Select(waveform), frequency, duration, SampleCount(duration), volume, Envelope.Default, i);
  }
}

=== FILE: render.dfy ===
/** Track rendering, renderer.py `renderMusic`: every (frequency, duration)
    note is pitch-shifted and tempo-scaled, synthesised (or silenced for a
    rest), and appended to the track in order. The note list, a global in
    the program, is an explicit argument here. */
module Render {
  import opened Common
  import Oscillator
  import Envelope

  /** One entry of the note list: frequency in Hz (0 for a rest) and
      duration in seconds. */
  datatype Note = Note(freq: real, dur: real)

  /** The arguments of renderMusic. */
  datatype Settings = Settings(waveform: string, volume: real, bpm: int, pitchShift: int)

  /** freq * 2 ** (pitchShift / 12): equal-tempered semitone shift. A
      zero frequency stays zero whatever the shift. */
  function ShiftedFrequency(lib: Numerics, freq: real, pitchShift: int): (f: real)
    ensures freq == 0.0 ==> f == 0.0
  {
    freq * lib.exp2(pitchShift as real / 12.0)
  }

  /** dur * (120 / bpm): durations are written for 120 beats per minute,
      so the scaled duration times the tempo is the written duration times
      120. */
  function RealDuration(dur: real, bpm: int): (d: real)
    requires bpm != 0
    ensures d * bpm as real == dur * 120.0
  {
    dur * (120.0 / bpm as real)
  }

  /** The number of samples a note occupies at the given tempo. It is
      negative, so numpy refuses it, exactly when the scaled note is at
      least one sample long below zero; a note of non-negative duration at a
      positive tempo always has a count numpy accepts. */
  function NoteSamples(note: Note, bpm: int): (k: int)
    requires bpm != 0
    ensures k < 0 <==> SampleRate as real * RealDuration(note.dur, bpm) <= -1.0
    ensures 0.0 <= note.dur && 0 < bpm ==> 0 <= k
  {
    Oscillator.SampleCount(RealDuration(note.dur, bpm))
  }

  /** The buffer of one note: numpy raises on a negative sample count, a
      zero frequency gives silence, anything else is synthesised. */
  function Segment(lib: Numerics, note: Note, s: Settings): (r: Result<seq<real>>)
    requires s.bpm != 0
    ensures r.Ok? <==> NoteSamples(note, s.bpm) >= 0
    ensures r.Err? ==> r.error == NegativeSampleCount
    ensures r.Ok? ==> |r.value| == NoteSamples(note, s.bpm)
    ensures r.Ok? && note.freq == 0.0 ==> forall j :: 0 <= j < |r.value| ==> r.value[j] == 0.0
  {
    var shifted := ShiftedFrequency(lib, note.freq, s.pitchShift);
    var realdur := RealDuration(note.dur, s.bpm);
    var count := Oscillator.SampleCount(realdur);
    if count < 0 then Err(NegativeSampleCount)
    else if note.freq == 0.0 then Ok(Zeros(count))
    else Ok(Oscillator.GenerateWaveform(lib, shifted, realdur, s.waveform, s.volume))
  }

  /** The per-note results, in note order. */
  function Segments(lib: Numerics, notes: seq<Note>, s: Settings): (parts: seq<Result<seq<real>>>)
    requires s.bpm != 0
    ensures |parts| == |notes|
    ensures forall k :: 0 <= k < |notes| ==> parts[k] == Segment(lib, notes[k], s)
  {
    seq(|notes|, k requires 0 <= k < |notes| => Segment(lib, notes[k], s))
  }

  /** The loop's accumulation: buffers are appended in order and the first
      failing one stops it with its error. */
  function Concat(parts: seq<Result<seq<real>>>): (r: Result<seq<real>>)
    ensures r.Err? ==> exists k :: 0 <= k < |parts| && parts[k] == r
    decreases |parts|
  {
    if parts == [] then Ok([])
    else
      match Concat(parts[..|parts| - 1])
      case Err(e) => Err(e)
      case Ok(acc) =>
        match parts[|parts| - 1]
        case Err(e) => Err(e)
        case Ok(seg) => Ok(acc + seg)
  }

  /** The track built from the notes in order. */
  function Track(lib: Numerics, notes: seq<Note>, s: Settings): (r: Result<seq<real>>)
    requires s.bpm != 0
    ensures r.Ok? <==> AllCountsValid(notes, s.bpm)
    ensures r.Err? ==> r.error == NegativeSampleCount
  {
    ConcatSucceedsIff(Segments(lib, notes, s));
    Concat(Segments(lib, notes, s))
  }

  /** renderMusic as a value: no notes is an error, bpm == 0 fails on the
      division at the first note, otherwise the track. */
  function Render(lib: Numerics, notes: seq<Note>, s: Settings): (r: Result<seq<real>>)
    ensures (r.Err? && r.error == NoNotesLoaded) <==> notes == []
    ensures (r.Err? && r.error == ZeroDivision) <==> notes != [] && s.bpm == 0
    ensures r.Err? && notes != [] && s.bpm != 0 ==> r.error == NegativeSampleCount
  {
    if notes == [] then Err(NoNotesLoaded)
    else if s.bpm == 0 then Err(ZeroDivision)
    else
      Track(lib, notes, s)
  }

  /** The sum of the notes' sample counts. */
  function TotalSamples(notes: seq<Note>, bpm: int): int
    requires bpm != 0
    decreases |notes|
  {
    if notes == [] then 0
    else TotalSamples(notes[..|notes| - 1], bpm) + NoteSamples(notes[|notes| - 1], bpm)
  }

  /** Every note has a sample count numpy accepts. */
  predicate AllCountsValid(notes: seq<Note>, bpm: int)
    requires bpm != 0
  {
    forall k :: 0 <= k < |notes| ==> NoteSamples(notes[k], bpm) >= 0
  }

  /** renderMusic: the loop over the notes growing the accumulated buffer. */
  method RenderMusic(lib: Numerics, notes: seq<Note>, s: Settings) returns (r: Result<seq<real>>)
    ensures r == Render(lib, notes, s)
    ensures (r.Err? && r.error == NoNotesLoaded) <==> notes == []
    ensures (r.Err? && r.error == ZeroDivision) <==> notes != [] && s.bpm == 0
    ensures r.Ok? <==> notes != [] && s.bpm != 0 && AllCountsValid(notes, s.bpm)
    ensures r.Ok? ==> |r.value| == TotalSamples(notes, s.bpm)
  {
    if notes == [] {
      return Err(NoNotesLoaded);
    }
    var finalWav: seq<real> := [];
    var i := 0;
    while i < |notes|
      invariant 0 <= i <= |notes|
      invariant i > 0 ==> s.bpm != 0
      invariant s.bpm != 0 ==> Concat(Segments(lib, notes, s)[..i]) == Ok(finalWav)
    {
      if s.bpm == 0 {
        return Err(ZeroDivision);
      }
      ghost var parts := Segments(lib, notes, s);
      assert parts[..i + 1][..i] == parts[..i];
      var seg := Segment(lib, notes[i], s);
      if seg.Err? {
        ConcatErrorPersists(parts, i + 1);
        assert Render(lib, notes, s) == Track(lib, notes, s);
        return Err(seg.error);
      }
      finalWav := finalWav + seg.value;
      i := i + 1;
    }
    assert Segments(lib, notes, s)[..i] == Segments(lib, notes, s);
    TrackLength(lib, notes, s);
    r := Ok(finalWav);
  }

  /** Once a prefix of the parts fails, the whole accumulation fails the
      same way. */
  lemma {:induction false} ConcatErrorPersists(parts: seq<Result<seq<real>>>, k: nat)
    requires k <= |parts| && Concat(parts[..k]).Err?
    ensures Concat(parts) == Concat(parts[..k])
    decreases |parts| - k
  {
    if k < |parts| {
      var prefix := parts[..k + 1];
      assert prefix[..|prefix| - 1] == parts[..k];
      ConcatErrorPersists(parts, k + 1);
    } else {
      assert parts[..k] == parts;
    }
  }

  /** The accumulation fails with the error of the first failing part. */
  lemma {:induction false} ConcatFirstError(parts: seq<Result<seq<real>>>, k: int)
    requires 0 <= k < |parts| && parts[k].Err?
    requires forall j :: 0 <= j < k ==> parts[j].Ok?
    ensures Concat(parts) == Err(parts[k].error)
  {
    var prefix := parts[..k + 1];
    assert prefix[..k] == parts[..k];
    ConcatSucceedsIff(parts[..k]);
    ConcatErrorPersists(parts, k + 1);
  }

  /** The accumulation succeeds exactly when every part does. */
  lemma {:induction false} ConcatSucceedsIff(parts: seq<Result<seq<real>>>)
    ensures Concat(parts).Ok? <==> forall k :: 0 <= k < |parts| ==> parts[k].Ok?
    decreases |parts|
  {
    if parts != [] {
      var init := parts[..|parts| - 1];
      ConcatSucceedsIff(init);
      assert forall k :: 0 <= k < |init| ==> init[k] == parts[k];
    }
  }

  /** Accumulating two lists of parts one after the other gives the two
      results concatenated. */
  lemma {:induction false} ConcatAppend(xs: seq<Result<seq<real>>>, ys: seq<Result<seq<real>>>)
    requires Concat(xs).Ok? && Concat(ys).Ok?
    ensures Concat(xs + ys) == Ok(Concat(xs).value + Concat(ys).value)
    decreases |ys|
  {
    if ys == [] {
      assert xs + ys == xs;
      assert Concat(xs).value + [] == Concat(xs).value;
    } else {
      var init := ys[..|ys| - 1];
      assert (xs + ys)[..|xs + ys| - 1] == xs + init;
      assert (xs + ys)[|xs + ys| - 1] == ys[|ys| - 1];
      var a, b, last := Concat(xs).value, Concat(init).value, ys[|ys| - 1].value;
      ConcatAppend(xs, init);
      assert Concat(ys).value == b + last;
      assert a + b + last == a + (b + last);
    }
  }

  /** In a successful accumulation, part k sits right after the parts
      before it. */
  lemma {:induction false} ConcatPartInPlace(parts: seq<Result<seq<real>>>, k: int)
    requires 0 <= k < |parts| && Concat(parts).Ok?
    ensures Concat(parts[..k]).Ok? && parts[k].Ok?
    ensures var start := |Concat(parts[..k]).value|;
      var whole := Concat(parts).value;
      start + |parts[k].value| <= |whole| &&
      whole[start..start + |parts[k].value|] == parts[k].value
  {
    var before, one, rest := parts[..k], [parts[k]], parts[k + 1..];
    assert parts == before + one + rest;
    ConcatSucceedsIff(parts);
    ConcatSucceedsIff(before);
    ConcatSucceedsIff(rest);
    assert one[..|one| - 1] == [];
    assert one[|one| - 1] == parts[k];
    assert Concat(one) == Ok([] + parts[k].value);
    assert [] + parts[k].value == parts[k].value;
    ConcatAppend(before, one);
    ConcatAppend(before + one, rest);
    var a := Concat(before).value;
    var whole := Concat(parts).value;
    assert whole == a + parts[k].value + Concat(rest).value;
    assert whole[|a|..|a| + |parts[k].value|] == parts[k].value;
  }

  /** The per-note results of a prefix of the notes are a prefix of the
      per-note results. */
  lemma SegmentsPrefix(lib: Numerics, notes: seq<Note>, s: Settings, k: int)
    requires s.bpm != 0 && 0 <= k <= |notes|
    ensures Segments(lib, notes[..k], s) == Segments(lib, notes, s)[..k]
  {
  }

  /** Per-note results commute with dropping a prefix of the notes. */
  lemma SegmentsSuffix(lib: Numerics, notes: seq<Note>, s: Settings, k: int)
    requires s.bpm != 0 && 0 <= k <= |notes|
    ensures Segments(lib, notes[k..], s) == Segments(lib, notes, s)[k..]
  {
  }

  /** The per-note results of two note lists one after the other are the
      two lists of results one after the other. */
  lemma {:induction false} SegmentsAppend(lib: Numerics, xs: seq<Note>, ys: seq<Note>, s: Settings)
    requires s.bpm != 0
    ensures Segments(lib, xs + ys, s) == Segments(lib, xs, s) + Segments(lib, ys, s)
  {
    var zs := xs + ys;
    assert zs[..|xs|] == xs;
    assert zs[|xs|..] == ys;
    SegmentsPrefix(lib, zs, s, |xs|);
    SegmentsSuffix(lib, zs, s, |xs|);
    JoinAtSplit(Segments(lib, zs, s), Segments(lib, xs, s), Segments(lib, ys, s), |xs|);
  }

  /** A sequence is its part before n followed by its part from n on. */
  lemma JoinAtSplit<T>(whole: seq<T>, left: seq<T>, right: seq<T>, n: int)
    requires 0 <= n <= |whole| && whole[..n] == left && whole[n..] == right
    ensures whole == left + right
  {
    assert whole == whole[..n] + whole[n..];
  }

  /** Reading a sample of a slice reads the whole buffer at the offset. */
  lemma SliceAt(whole: seq<real>, part: seq<real>, start: int, j: int)
    requires 0 <= start && start + |part| <= |whole| && whole[start..start + |part|] == part
    requires start <= j < start + |part|
    ensures whole[j] == part[j - start]
  {
    assert whole[start..start + |part|][j - start] == whole[j];
  }

  /** A successful track has exactly the summed per-note sample counts. */
  lemma {:induction false} TrackLength(lib: Numerics, notes: seq<Note>, s: Settings)
    requires s.bpm != 0
    ensures Track(lib, notes, s).Ok? ==> |Track(lib, notes, s).value| == TotalSamples(notes, s.bpm)
    decreases |notes|
  {
    if notes != [] {
      var init := notes[..|notes| - 1];
      SegmentsPrefix(lib, notes, s, |notes| - 1);
      TrackLength(lib, init, s);
    }
  }

  /** Rendering two note lists one after the other gives the two tracks
      concatenated: buffers keep the order of their notes. */
  lemma TrackAppend(lib: Numerics, xs: seq<Note>, ys: seq<Note>, s: Settings)
    requires s.bpm != 0
    requires Track(lib, xs, s).Ok? && Track(lib, ys, s).Ok?
    ensures Track(lib, xs + ys, s) == Ok(Track(lib, xs, s).value + Track(lib, ys, s).value)
  {
    SegmentsAppend(lib, xs, ys, s);
    ConcatAppend(Segments(lib, xs, s), Segments(lib, ys, s));
  }

  /** In a successful track, note k's buffer sits right after the samples
      of the notes before it. */
  lemma SegmentInPlace(lib: Numerics, notes: seq<Note>, s: Settings, k: int)
    requires s.bpm != 0 && 0 <= k < |notes|
    requires Track(lib, notes, s).Ok?
    ensures var start := TotalSamples(notes[..k], s.bpm);
      var seg := Segment(lib, notes[k], s);
      var track := Track(lib, notes, s).value;
      seg.Ok? && 0 <= start && start + |seg.value| <= |track| &&
      track[start..start + |seg.value|] == seg.value
  {
    var parts := Segments(lib, notes, s);
    SegmentsPrefix(lib, notes, s, k);
    TrackLength(lib, notes[..k], s);
    PartAtOffset(parts, k, TotalSamples(notes[..k], s.bpm));
  }

  /** ConcatPartInPlace with the offset of part k given as a number. */
  lemma PartAtOffset(parts: seq<Result<seq<real>>>, k: int, start: int)
    requires 0 <= k < |parts| && Concat(parts).Ok?
    requires Concat(parts[..k]).Ok? ==> start == |Concat(parts[..k]).value|
    ensures parts[k].Ok? && 0 <= start && start + |parts[k].value| <= |Concat(parts).value|
    ensures Concat(parts).value[start..start + |parts[k].value|] == parts[k].value
  {
    ConcatPartInPlace(parts, k);
  }

  /** A rest's samples in the track are all zero. */
  lemma RestIsSilent(lib: Numerics, notes: seq<Note>, s: Settings, k: int, j: int)
    requires s.bpm != 0 && 0 <= k < |notes| && notes[k].freq == 0.0
    requires Track(lib, notes, s).Ok?
    requires var start := TotalSamples(notes[..k], s.bpm); start <= j < start + NoteSamples(notes[k], s.bpm)
    ensures 0 <= j < |Track(lib, notes, s).value| && Track(lib, notes, s).value[j] == 0.0
  {
    SegmentInPlace(lib, notes, s, k);
    var start := TotalSamples(notes[..k], s.bpm);
    var seg := Segment(lib, notes[k], s).value;
    var track := Track(lib, notes, s).value;
    SliceAt(track, seg, start, j);
  }

  /** What generateWaveform puts at sample j of a sounding note: the volume
      times the selected oscillator at the shifted frequency and time j of
      the scaled duration's axis, times the default envelope at j. */
  function SoundingValue(lib: Numerics, note: Note, s: Settings, j: int): real
    requires s.bpm != 0 && 0 <= j < NoteSamples(note, s.bpm)
  {
    var c := NoteSamples(note, s.bpm);
    var f := ShiftedFrequency(lib, note.freq, s.pitchShift);
    var d := RealDuration(note.dur, s.bpm);
    s.volume * (Oscillator.Oscillate(lib, Oscillator.Select(s.waveform), Oscillator.Phase(f, Oscillator.TimeAxis(d, c)[j]))
                * Envelope.Shape(c, Envelope.Default)[j])
  }

  /** A sounding note's buffer is generateWaveform at the shifted frequency,
      the scaled duration, the chosen waveform and the volume: sample j is
      SoundingValue. */
  lemma {:induction false} SoundingSampleAt(lib: Numerics, note: Note, s: Settings, j: int)
    requires s.bpm != 0 && note.freq != 0.0 && 0 <= j < NoteSamples(note, s.bpm)
    ensures Segment(lib, note, s).Ok?
    ensures Segment(lib, note, s).value[j] == SoundingValue(lib, note, s, j)
  {
    var f := ShiftedFrequency(lib, note.freq, s.pitchShift);
    var d := RealDuration(note.dur, s.bpm);
    assert Segment(lib, note, s).value == Oscillator.GenerateWaveform(lib, f, d, s.waveform, s.volume);
    Oscillator.NoteSampleAt(lib, f, d, s.waveform, s.volume, NoteSamples(note, s.bpm), j);
  }

  /** In a successful track, sample j of a sounding note k sits at offset
      TotalSamples(notes[..k]) + j and is that note's generateWaveform
      sample. */
  lemma SoundingNoteInPlace(lib: Numerics, notes: seq<Note>, s: Settings, k: int, j: int)
    requires s.bpm != 0 && 0 <= k < |notes| && notes[k].freq != 0.0
    requires AllCountsValid(notes, s.bpm)
    requires 0 <= j < NoteSamples(notes[k], s.bpm)
    ensures var start := TotalSamples(notes[..k], s.bpm);
      0 <= start + j < |Track(lib, notes, s).value| &&
      Track(lib, notes, s).value[start + j] == SoundingValue(lib, notes[k], s, j)
  {
    SegmentInPlace(lib, notes, s, k);
    SoundingSampleAt(lib, notes[k], s, j);
    ValueInPlace(Track(lib, notes, s).value, Segment(lib, notes[k], s).value,
      TotalSamples(notes[..k], s.bpm), j, SoundingValue(lib, notes[k], s, j));
  }

  /** A value at offset j of a slice is at start + j of the whole buffer. */
  lemma ValueInPlace(whole: seq<real>, part: seq<real>, start: int, j: int, v: real)
    requires 0 <= start && start + |part| <= |whole| && whole[start..start + |part|] == part
    requires 0 <= j < |part| && part[j] == v
    ensures 0 <= start + j < |whole| && whole[start + j] == v
  {
    SliceAt(whole, part, start, start + j);
  }

  /** No pitch shift keeps the frequency, given 2 ** 0 == 1. */
  lemma PitchShiftIdentity(lib: Numerics, freq: real)
    requires lib.exp2(0.0) == 1.0
    ensures ShiftedFrequency(lib, freq, 0) == freq
  {
  }

  /** Twelve semitones double the frequency, given 2 ** 1 == 2. */
  lemma PitchShiftOctave(lib: Numerics, freq: real)
    requires lib.exp2(1.0) == 2.0
    ensures ShiftedFrequency(lib, freq, 12) == 2.0 * freq
  {
  }

  /** At 120 bpm durations are unchanged. */
  lemma TempoReference(dur: real)
    ensures RealDuration(dur, 120) == dur
  {
  }

  /** Doubling the tempo halves every duration. */
  lemma TempoDoubling(dur: real, bpm: int)
    requires bpm != 0
    ensures RealDuration(dur, 2 * bpm) == RealDuration(dur, bpm) / 2.0
  {
    var b := bpm as real;
    assert 120.0 / (2 * bpm) as real == (120.0 / b) / 2.0;
  }

  /** One second at 44100 Hz is 44100 samples; half a second is 22050. */
  lemma {:induction false} SampleCountsOfScenario()
    ensures Oscillator.SampleCount(1.0) == 44100
    ensures Oscillator.SampleCount(0.5) == 22050
  {
  }

  /** The three scenario notes at 120 bpm take 44100, 22050 and 44100
      samples. */
  lemma {:induction false} ScenarioCounts(notes: seq<Note>)
    requires notes == [Note(440.0, 1.0), Note(0.0, 0.5), Note(880.0, 1.0)]
    ensures NoteSamples(notes[0], 120) == 44100
    ensures NoteSamples(notes[1], 120) == 22050
    ensures NoteSamples(notes[2], 120) == 44100
    ensures TotalSamples(notes[..1], 120) == 44100
    ensures TotalSamples(notes, 120) == 110250
  {
    SampleCountsOfScenario();
    TempoReference(1.0);
    TempoReference(0.5);
    assert notes[..1][..0] == [];
    assert notes[..2][..1] == notes[..1];
    assert notes[..|notes| - 1] == notes[..2];
  }

  /** A 440 Hz second, a half-second rest and an 880 Hz second at 120 bpm
      render to 110250 samples whose middle 22050 are silent. */
  lemma {:induction false} ThreeNoteScenario(lib: Numerics, volume: real)
    ensures var notes := [Note(440.0, 1.0), Note(0.0, 0.5), Note(880.0, 1.0)];
      var r := Render(lib, notes, Settings("sine", volume, 120, 0));
      r.Ok? && |r.value| == 110250 &&
      forall j :: 44100 <= j < 66150 ==> r.value[j] == 0.0
  {
    var notes := [Note(440.0, 1.0), Note(0.0, 0.5), Note(880.0, 1.0)];
    var s := Settings("sine", volume, 120, 0);
    ScenarioCounts(notes);
    TrackLength(lib, notes, s);
    forall j | 44100 <= j < 66150 ensures Track(lib, notes, s).value[j] == 0.0 {
      RestIsSilent(lib, notes, s, 1, j);
    }
  }

  /** The scenario's two sounding notes: its first 44100 samples are the
      440 Hz note's generateWaveform samples, and its last 44100 are the
      880 Hz note's. */
  lemma {:induction false} ThreeNoteScenarioSounding(lib: Numerics, volume: real, j: int)
    requires 0 <= j < 44100
    ensures var notes := [Note(440.0, 1.0), Note(0.0, 0.5), Note(880.0, 1.0)];
      var s := Settings("sine", volume, 120, 0);
      var r := Render(lib, notes, s);
      NoteSamples(notes[0], 120) == 44100 && NoteSamples(notes[2], 120) == 44100 &&
      r.Ok? && |r.value| == 110250 &&
      r.value[j] == SoundingValue(lib, notes[0], s, j) &&
      r.value[66150 + j] == SoundingValue(lib, notes[2], s, j)
  {
    var notes := [Note(440.0, 1.0), Note(0.0, 0.5), Note(880.0, 1.0)];
    var s := Settings("sine", volume, 120, 0);
    ScenarioCounts(notes);
    TrackLength(lib, notes, s);
    SoundingNoteInPlace(lib, notes, s, 0, j);
    SoundingNoteInPlace(lib, notes, s, 2, j);
  }
}
